=== FILE: README.md ===
# TikTok link bot — a Dafny model of its message path

The bot (`index.js`) watches a Telegram chat. When a message text holds a TikTok link, the bot
replies with a "processing" notice and asks the TikWM API for the video without watermark. It then
sends the video and removes the notice, or edits the notice into an error text. This project models
the three pieces of logic on that path and proves what they do:

- `LinkMatcher` (`link_matcher.dfy`): the pattern
  `/(?:https?:\/\/)?(?:www\.|vt\.|vm\.|t\.)?tiktok\.com\/[^\s]+/`, applied with `String.prototype.match`.
  `Search` follows the ECMAScript matching algorithm for this pattern. It tries start positions left
  to right, and at each position tries the alternatives in backtracking order: `https://`, then
  `http://`, then no scheme; `www.`, `vt.`, `vm.`, `t.`, then no host; then a greedy `[^\s]+`.
  `Selected` is an independent, declarative description of the same match: the leftmost start of a
  substring in the language of the pattern, and the longest such substring there. The bridge is
  `PrefixDeterminesChoice`: at any one position at most one choice of scheme and host can occur, so
  backtracking priority and "longest" agree.
- `TikWm` (`tikwm.dfy`): `getVideoNoWatermark`. It turns the TikWM answer into `{url, title, author}`,
  or into `null` when the request fails, `code` is not exactly `0`, or a property read throws. The
  answer is a `Json` value, and property reads follow JavaScript. `Accepted` and `Expected` state the
  adapter's result directly on the raw JSON.
- `MessageHandler` (`message_handler.dfy`): the `message` handler, as the sequence of chat calls it
  makes (`SendProcessing`, `SendVideo(url)`, `DeleteProcessing`, `EditToError`). How the awaited
  calls end and what TikWM answers are inputs (`Outcomes`).

`wrappers.dfy` holds the `Option` and `Result` types the modules share.

## Model

| member | source | states |
|---|---|---|
| `LinkMatcher.RunEnd` | index.js:31 | the greedy `[^\s]+`: the run contains no `\s` and stops at a `\s` or at the end of the text |
| `LinkMatcher.IsSpaceIsEcmaSpace` | index.js:31 | `IsSpace`, the `\s` of `[^\s]+`, is exactly the union of ECMAScript's WhiteSpace and LineTerminator tables, and every such character is one UTF-16 code unit |
| `LinkMatcher.TryAt` | index.js:31 | one attempt with fixed alternatives succeeds exactly when its prefix is followed by a non-`\s` character, and ends the match at the next `\s` or the end |
| `LinkMatcher.TryHosts` | index.js:31 | the host alternation yields the result of the first host alternative that succeeds, every earlier one having failed, or fails when all of them fail |
| `LinkMatcher.TrySchemes` | index.js:31 | the scheme alternation, each scheme with every host, yields the result of the first scheme whose host alternation succeeds, every earlier one having failed, or fails when all of them fail |
| `LinkMatcher.MatchAt` | index.js:31 | the pattern anchored at a position returns the end of the longest member of the language starting there, or fails when none starts there |
| `LinkMatcher.PrefixDeterminesChoice` | index.js:31 | at one position at most one (scheme, host) choice can spell its prefix |
| `LinkMatcher.SearchFrom` | index.js:39 | scanning start positions left to right finds the first one where a match exists, and the longest match there |
| `LinkMatcher.Search` | index.js:39 | the span found is the selected one (leftmost, then longest) and ends at `\s` or at the end of the text; nothing is found exactly when no substring is in the language |
| `LinkMatcher.Match` | index.js:39-42 | `match[0]` is the text of the selected span, and `null` exactly when no substring is in the language |
| `LinkMatcher.SelectedIsUnique` | index.js:39-42 | the declarative selection admits only one span |
| `LinkMatcher.MatchIsSelected` | index.js:39-42 | whenever a span is selected, `Match` returns exactly that substring |
| `LinkMatcher.MatchNoneIff` | index.js:31 | there is no link exactly when `tiktok.com/` never occurs followed by a non-`\s` character, since scheme and host are optional |
| `LinkMatcher.MatchIsVerbatimLink` | index.js:39-42 | the link is a verbatim substring of the text, in the language of the pattern, free of `\s`, and holds `tiktok.com/` followed by a non-`\s` character |
| `LinkMatcher.MatchInContext` | index.js:31 | a link written after link-free text that ends in `\s` is returned whole, with the scheme and host it was written with, up to the next `\s` or the end |
| `LinkMatcher.UpperCaseIsNoLink` | index.js:31 | without the `i` flag, `TIKTOK.COM/x` holds no link |
| `LinkMatcher.UnlistedHostIsDropped` | index.js:30-31 | the host list is closed: in `https://m.tiktok.com/x` the link found is `tiktok.com/x`, without scheme or host |
| `TikWm.Get` | index.js:85-89 | a property read throws exactly on `undefined` and `null`, and yields a value exactly for an own property of an object |
| `TikWm.ReadAnswer` | index.js:83-94 | the body of the `try`: for a parsed answer it gives a record exactly when `Accepted` holds, and then the record `Expected`; it gives `null` without throwing exactly when the answer is neither `undefined` nor `null` and `code` is not the number 0; in every other case it throws, which `GetVideoNoWatermark` turns into `null` |
| `TikWm.GetVideoNoWatermark` | index.js:76-100 | the result is a record exactly when the answer is an object with `code` the number 0, an object `data`, and a non-null `data.author`; the record is `data.play`, `data.title` and `data.author.nickname`; otherwise it is `null` |
| `TikWm.StrictCodeComparison` | index.js:85 | `code` is compared with `===`: the string `"0"` gives `null` |
| `TikWm.MissingPlayIsNoError` | index.js:86-90 | an accepted answer without `play` still gives a record, with url `undefined` |
| `TikWm.OnlySuccessCodeYieldsVideo` | index.js:85-98 | a rejected request, a non-object body, or a `code` other than 0 gives `null` |
| `TikWm.PlayAnswerIsRead` | index.js:83-90 | the smallest success answer yields its `play` url with `title` and nickname `undefined` |
| `MessageHandler.OnMessage` | index.js:33-73 | the handler makes no call exactly when the message has no text or its text holds no link; otherwise it starts with the notice; it stops right after the notice exactly when the notice could not be sent; the trace has one of the five possible shapes |
| `MessageHandler.Truthy` | index.js:53 | `!videoData.url` is true exactly for the falsy values an answer can hold: `undefined`, `null`, `false`, `0` and `""` |
| `MessageHandler.EmptyTextHasNoLink` | index.js:37 | the empty text, turned away by `!text`, holds no link anyway |
| `MessageHandler.FetchedIsAdapterResult` | index.js:51 | for a message with a link, the adapter returns a record exactly when TikWM accepted that link, and the record is the one built from the answer |
| `MessageHandler.DeletedIffDelivered` | index.js:53-63 | the notice is deleted exactly when the notice and the video were sent and TikWM gave a truthy url for the link |
| `MessageHandler.ErrorIffNotDelivered` | index.js:50-71 | the notice is edited into the error exactly when there is a link, the notice was sent, and no video was delivered |
| `MessageHandler.SentVideoIsFetched` | index.js:51-70 | a video is sent only with the truthy url TikWM gave for the message's own link; conversely, once the notice was sent, every such url is sent, and the trace is exactly notice, video, then the notice's deletion when `sendVideo` resolves or its edit into the error when it rejects |
| `MessageHandler.NoticeIsResolved` | index.js:46-71 | once the notice was sent, the trace ends with exactly one of its deletion and its edit into the error |
| `MessageHandler.OnlyTheLinkIsLookedUp` | index.js:42-51 | the calls depend on TikWM only through its answer for the matched link |
| `MessageHandler.DeliveredTrace` | index.js:51-63 | a link that TikWM resolves to a truthy url, with both sends succeeding, gives exactly: notice, video, deletion of the notice |
| `MessageHandler.LinkInMessageIsDelivered` | index.js:33-73 | end to end: a message holding one link and answered with a `play` url gets exactly that video, and then loses its notice |

## Left out

- Start-up (index.js:1-12: loading the environment, the token check, `process.exit`) and the
  keep-alive HTTP server (index.js:15-24): these are configuration and infrastructure, not logic.
- The HTTP request to TikWM, and Telegram's `sendMessage`, `sendVideo`, `deleteMessage` and
  `editMessageText`. Their outcomes are inputs: `TikWm.Response` and `MessageHandler.Outcomes`.
  `deleteMessage` and `editMessageText` are not awaited, so they are recorded as attempted calls
  and their outcome changes nothing in this message's calls.
- `MessageHandler.OnMessage`, `MessageHandler.NoticeIsResolved`: every awaited call (`sendMessage`,
  the TikWM request, `sendVideo`) is taken to end, by resolving or rejecting. `axios.post` at
  index.js:79 sets no timeout, so a TikWM request that never answers leaves the handler waiting at
  index.js:51 forever, and the notice is then neither deleted nor edited; `Outcomes` has no value
  for such a call.
- `MessageHandler.OnMessage`: the model records only the calls made for this one message, not what
  a rejection that leaves the handler does to the process. A rejected `sendMessage` (index.js:46)
  is awaited outside the `try` of index.js:50-71, so it escapes the `async` listener as an unhandled
  rejection (`bot.on` ignores the listener's promise); the model shows it as the trace
  `[SendProcessing]`. A rejected `editMessageText` (index.js:67) is unhandled too, as it has no
  `.catch`, unlike `deleteMessage` (index.js:63), whose rejection is swallowed. Under Node's default
  policy an unhandled rejection ends the process, and with it the handling of later messages.
- Logging (`console.log`, `console.error`) and the chat id, message id and reply options passed
  along with each call.
- `MessageHandler.OnMessage`: the log line at index.js:43 reads `msg.from.username`, which would
  throw for a message without `from`. The model takes `from` as present, as Telegram sets it on
  every `message` update.
- Concurrency: each message is handled by its own asynchronous call; their interleaving is not
  modelled.
- Characters: Dafny strings hold Unicode scalar values, while a JavaScript regular expression
  without the `u` flag works on UTF-16 code units. Every `\s` character lies in the Basic
  Multilingual Plane and no surrogate is `\s`, so the substring found is the same.
- Numbers in the TikWM answer: `JNumber` holds the number `JSON.parse` produced, not the numeral
  in the body. `JSON.parse` never gives NaN, but it rounds each numeral to a double: a huge numeral
  such as `1e400` becomes Infinity, and a tiny one such as `1e-400` becomes 0. So an answer whose
  `code` is written `1e-400` arrives as `JNumber(0.0)` and passes `data.code === 0`, as in
  JavaScript. The rounding itself is not modelled, and Infinity has no `real` to stand for it. The
  adapter and the handler only compare numbers with 0 (`=== 0`, truthiness), where Infinity acts
  like any other non-zero number.
- index.js has no rate limiter, download queue, fallback providers, retries, local staging of
  downloads or administrative commands, so the model has none either.

=== FILE: link_matcher.dfy ===
/**
  The TikTok link detector of the bot: the single, non-global, case-sensitive pattern

      (?:https?:\/\/)?(?:www\.|vt\.|vm\.|t\.)?tiktok\.com\/[^\s]+

  applied with `String.prototype.match`, whose first element (the whole match) is the link.

  `Search` follows the ECMAScript RegExp algorithm for this one pattern: start positions are tried
  from left to right, and at each position the alternatives are tried in the order a backtracking
  matcher tries them (a greedy `?` first tries its group, `s?` first tries `s`, an alternation goes
  left to right), and `[^\s]+` takes as many characters as it can. `Selected` is the independent,
  declarative description: the leftmost start at which a substring belongs to the language of the
  pattern, and the longest such substring there.
*/
module LinkMatcher {
  import opened Wrappers

  /** `\s`: the WhiteSpace and LineTerminator code points of ECMAScript (section 22.2.2.9 of
      ECMA-262 builds the class from sections 12.2 and 12.3). */
  predicate IsSpace(c: char) {
    if c < '\U{00A0}' then
      c == '\t' || c == '\n' || c == '\U{000B}' || c == '\U{000C}' || c == '\r' || c == ' '
    else
      || c == '\U{00A0}' || c == '\U{1680}' || ('\U{2000}' <= c <= '\U{200A}')
      || c == '\U{2028}' || c == '\U{2029}' || c == '\U{202F}' || c == '\U{205F}'
      || c == '\U{3000}' || c == '\U{FEFF}'
  }

  /** WhiteSpace (section 12.2 of ECMA-262): TAB, VT, FF, ZWNBSP, and the space separators of
      Unicode category Zs. */
  const WhiteSpace: set<char> := {
    '\t', '\U{000B}', '\U{000C}', '\U{FEFF}',
    ' ', '\U{00A0}', '\U{1680}', '\U{2000}', '\U{2001}', '\U{2002}', '\U{2003}', '\U{2004}',
    '\U{2005}', '\U{2006}', '\U{2007}', '\U{2008}', '\U{2009}', '\U{200A}', '\U{202F}',
    '\U{205F}', '\U{3000}'}

  /** LineTerminator (section 12.3 of ECMA-262): LF, CR, LINE SEPARATOR, PARAGRAPH SEPARATOR. */
  const LineTerminator: set<char> := {'\n', '\r', '\U{2028}', '\U{2029}'}

  /** `IsSpace` is exactly the union of the two tables, and every `\s` character lies in the Basic
      Multilingual Plane, so it is one UTF-16 code unit. */
  lemma IsSpaceIsEcmaSpace(c: char)
    ensures IsSpace(c) <==> c in WhiteSpace + LineTerminator
    ensures IsSpace(c) ==> c <= '\U{FEFF}'
  {
  }

  predicate NoSpace(s: string) {
    forall k | 0 <= k < |s| :: !IsSpace(s[k])
  }

  /** The ways the optional group `(?:https?:\/\/)?` can match. */
  datatype Scheme = Https | Http | NoScheme

  /** The ways the optional group `(?:www\.|vt\.|vm\.|t\.)?` can match. */
  datatype Host = Www | Vt | Vm | T | NoHost

  function SchemeText(s: Scheme): string {
    match s
    case Https => "https://"
    case Http => "http://"
    case NoScheme => ""
  }

  function HostText(h: Host): string {
    match h
    case Www => "www."
    case Vt => "vt."
    case Vm => "vm."
    case T => "t."
    case NoHost => ""
  }

  /** The literal part `tiktok\.com\/`. */
  const Domain: string := "tiktok.com/"

  /** What the pattern matches before `[^\s]+`, for one choice of the two groups. */
  function Prefix(s: Scheme, h: Host): string {
    SchemeText(s) + HostText(h) + Domain
  }

  /** The order in which the matcher tries the alternatives of each group. */
  const SchemeOrder: seq<Scheme> := [Https, Http, NoScheme]
  const HostOrder: seq<Host> := [Www, Vt, Vm, T, NoHost]

  /** `w` occurs in `text` at position i; characters compare exactly, as there is no `i` flag. */
  predicate HasAt(text: string, i: nat, w: string) {
    i + |w| <= |text| && text[i..i + |w|] == w
  }

  // ---------------------------------------------------------------------------------------------
  // The language of the pattern and the match JavaScript returns, stated declaratively

  /** text[i..j] is matched in full by the pattern with its groups taking the alternatives s and h:
      the prefix, then one or more characters that are not `\s`. */
  ghost predicate SpellsAt(text: string, i: nat, j: nat, s: Scheme, h: Host) {
    var q := i + |Prefix(s, h)|;
    && q < j <= |text|
    && HasAt(text, i, Prefix(s, h))
    && forall k | q <= k < j :: !IsSpace(text[k])
  }

  /** text[i..j] belongs to the language of the pattern. */
  ghost predicate InLanguageAt(text: string, i: nat, j: nat) {
    exists s, h :: SpellsAt(text, i, j, s, h)
  }

  /** The string m belongs to the language of the pattern. */
  ghost predicate InLanguage(m: string) {
    InLanguageAt(m, 0, |m|)
  }

  /** No substring of `text` that starts at a position in [lo, hi) belongs to the language. */
  ghost predicate NoMatchFrom(text: string, lo: nat, hi: nat) {
    forall i, j | lo <= i < hi && i <= j :: !InLanguageAt(text, i, j)
  }

  /** No substring of `text` belongs to the language. */
  ghost predicate NoMatch(text: string) {
    NoMatchFrom(text, 0, |text| + 1)
  }

  /** text[start..end] is the match a leftmost-first search returns: no substring that starts
      earlier belongs to the language, and no longer one that starts at `start` does. */
  ghost predicate Selected(text: string, start: nat, end: nat) {
    && InLanguageAt(text, start, end)
    && NoMatchFrom(text, 0, start)
    && (forall j | end < j :: !InLanguageAt(text, start, j))
  }

  /** `text` holds `tiktok.com/` at position k, directly followed by a character that is not `\s`. */
  predicate LinkCoreAt(text: string, k: nat) {
    HasAt(text, k, Domain) && k + |Domain| < |text| && !IsSpace(text[k + |Domain|])
  }

  // ---------------------------------------------------------------------------------------------
  // The matcher

  /** Where the greedy `[^\s]+` that starts at k stops: the first `\s` at or after k, or the end. */
  function RunEnd(text: string, k: nat): (e: nat)
    requires k <= |text|
    ensures k <= e <= |text|
    ensures forall x | k <= x < e :: !IsSpace(text[x])
    ensures e == |text| || IsSpace(text[e])
    decreases |text| - k
  {
    if k < |text| && !IsSpace(text[k]) then RunEnd(text, k + 1) else k
  }

  /** One attempt of the pattern at position i with the groups fixed to s and h: the end of the
      match, or None when this choice of alternatives fails there. */
  function TryAt(text: string, i: nat, s: Scheme, h: Host): (r: Option<nat>)
    requires i <= |text|
    ensures r.Some? ==> SpellsAt(text, i, r.value, s, h)
    ensures r.Some? ==> r.value == |text| || IsSpace(text[r.value])
    ensures r.None? ==> forall j :: !SpellsAt(text, i, j, s, h)
  {
    var q := i + |Prefix(s, h)|;
    if HasAt(text, i, Prefix(s, h)) && q < |text| && !IsSpace(text[q]) then Some(RunEnd(text, q)) else None
  }

  /** k is the first host alternative, in the order of `hosts`, that succeeds after the scheme s. */
  ghost predicate FirstHost(text: string, i: nat, s: Scheme, hosts: seq<Host>, k: nat)
    requires i <= |text|
  {
    && k < |hosts| && TryAt(text, i, s, hosts[k]).Some?
    && forall k' | 0 <= k' < k :: TryAt(text, i, s, hosts[k']).None?
  }

  /** Tries the host alternatives `hosts` in order, after the scheme s; the first that succeeds wins. */
  function TryHosts(text: string, i: nat, s: Scheme, hosts: seq<Host>): (r: Option<nat>)
    requires i <= |text|
    ensures r.Some? ==> exists k: nat :: FirstHost(text, i, s, hosts, k) && TryAt(text, i, s, hosts[k]) == r
    ensures r.None? ==> forall k | 0 <= k < |hosts| :: TryAt(text, i, s, hosts[k]).None?
  {
    if hosts == [] then None
    else
      match TryAt(text, i, s, hosts[0])
      case Some(e) =>
        assert FirstHost(text, i, s, hosts, 0);
        Some(e)
      case None =>
        var r := TryHosts(text, i, s, hosts[1..]);
        HostPriorityShifts(text, i, s, hosts, r);
        r
  }

  /** Helper for TryHosts: when the first host fails, what holds of the remaining hosts holds of
      all of them, one index further. */
  lemma {:induction false} HostPriorityShifts(text: string, i: nat, s: Scheme, hosts: seq<Host>, r: Option<nat>)
    requires i <= |text| && hosts != [] && TryAt(text, i, s, hosts[0]).None?
    requires r.Some? ==> exists k: nat :: FirstHost(text, i, s, hosts[1..], k) && TryAt(text, i, s, hosts[1..][k]) == r
    requires r.None? ==> forall k | 0 <= k < |hosts| - 1 :: TryAt(text, i, s, hosts[1..][k]).None?
    ensures r.Some? ==> exists k: nat :: FirstHost(text, i, s, hosts, k) && TryAt(text, i, s, hosts[k]) == r
    ensures r.None? ==> forall k | 0 <= k < |hosts| :: TryAt(text, i, s, hosts[k]).None?
  {
    if r.Some? {
      var k: nat :| FirstHost(text, i, s, hosts[1..], k) && TryAt(text, i, s, hosts[1..][k]) == r;
      assert hosts[k + 1] == hosts[1..][k];
      forall k' | 0 <= k' < k + 1 ensures TryAt(text, i, s, hosts[k']).None? {
        if 0 < k' {
          assert hosts[k'] == hosts[1..][k' - 1];
        }
      }
      assert FirstHost(text, i, s, hosts, k + 1);
    } else {
      forall k | 0 <= k < |hosts| ensures TryAt(text, i, s, hosts[k]).None? {
        if 0 < k {
          assert hosts[k] == hosts[1..][k - 1];
        }
      }
    }
  }

  /** k is the first scheme alternative, in the order of `schemes`, after which the host
      alternation succeeds. */
  ghost predicate FirstScheme(text: string, i: nat, schemes: seq<Scheme>, hosts: seq<Host>, k: nat)
    requires i <= |text|
  {
    && k < |schemes| && TryHosts(text, i, schemes[k], hosts).Some?
    && forall k' | 0 <= k' < k :: TryHosts(text, i, schemes[k'], hosts).None?
  }

  /** Tries the scheme alternatives `schemes` in order, each with the host alternatives `hosts`. */
  function TrySchemes(text: string, i: nat, schemes: seq<Scheme>, hosts: seq<Host>): (r: Option<nat>)
    requires i <= |text|
    ensures r.Some? ==> exists k: nat :: FirstScheme(text, i, schemes, hosts, k) && TryHosts(text, i, schemes[k], hosts) == r
    ensures r.None? ==> forall k | 0 <= k < |schemes| :: TryHosts(text, i, schemes[k], hosts).None?
  {
    if schemes == [] then None
    else
      match TryHosts(text, i, schemes[0], hosts)
      case Some(e) =>
        assert FirstScheme(text, i, schemes, hosts, 0);
        Some(e)
      case None =>
        var r := TrySchemes(text, i, schemes[1..], hosts);
        SchemePriorityShifts(text, i, schemes, hosts, r);
        r
  }

  /** Helper for TrySchemes, as HostPriorityShifts is for TryHosts. */
  lemma {:induction false} SchemePriorityShifts(text: string, i: nat, schemes: seq<Scheme>, hosts: seq<Host>, r: Option<nat>)
    requires i <= |text| && schemes != [] && TryHosts(text, i, schemes[0], hosts).None?
    requires r.Some? ==> exists k: nat :: FirstScheme(text, i, schemes[1..], hosts, k) && TryHosts(text, i, schemes[1..][k], hosts) == r
    requires r.None? ==> forall k | 0 <= k < |schemes| - 1 :: TryHosts(text, i, schemes[1..][k], hosts).None?
    ensures r.Some? ==> exists k: nat :: FirstScheme(text, i, schemes, hosts, k) && TryHosts(text, i, schemes[k], hosts) == r
    ensures r.None? ==> forall k | 0 <= k < |schemes| :: TryHosts(text, i, schemes[k], hosts).None?
  {
    if r.Some? {
      var k: nat :| FirstScheme(text, i, schemes[1..], hosts, k) && TryHosts(text, i, schemes[1..][k], hosts) == r;
      FirstSchemeShifts(text, i, schemes, hosts, k);
    } else {
      NoSchemeShifts(text, i, schemes, hosts);
    }
  }

  lemma {:induction false} NoSchemeShifts(text: string, i: nat, schemes: seq<Scheme>, hosts: seq<Host>)
    requires i <= |text| && schemes != [] && TryHosts(text, i, schemes[0], hosts).None?
    requires forall k | 0 <= k < |schemes| - 1 :: TryHosts(text, i, schemes[1..][k], hosts).None?
    ensures forall k | 0 <= k < |schemes| :: TryHosts(text, i, schemes[k], hosts).None?
  {
    forall k | 0 <= k < |schemes| ensures TryHosts(text, i, schemes[k], hosts).None? {
      if 0 < k {
        assert schemes[k] == schemes[1..][k - 1];
      }
    }
  }

  lemma {:induction false} FirstSchemeShifts(text: string, i: nat, schemes: seq<Scheme>, hosts: seq<Host>, k: nat)
    requires i <= |text| && schemes != [] && TryHosts(text, i, schemes[0], hosts).None?
    requires FirstScheme(text, i, schemes[1..], hosts, k)
    ensures FirstScheme(text, i, schemes, hosts, k + 1) && schemes[k + 1] == schemes[1..][k]
  {
    assert schemes[k + 1] == schemes[1..][k];
    forall k' | 0 <= k' < k + 1 ensures TryHosts(text, i, schemes[k'], hosts).None? {
      if 0 < k' {
        assert schemes[k'] == schemes[1..][k' - 1];
      }
    }
  }

  /** The pattern anchored at i: the end of its match there, or None when it fails there. */
  function MatchAt(text: string, i: nat): (r: Option<nat>)
    requires i <= |text|
    ensures r.Some? ==> i < r.value <= |text| && InLanguageAt(text, i, r.value)
    ensures r.Some? ==> forall j | r.value < j :: !InLanguageAt(text, i, j)
    ensures r.Some? ==> r.value == |text| || IsSpace(text[r.value])
    ensures r.None? ==> forall j :: !InLanguageAt(text, i, j)
  {
    var r := TrySchemes(text, i, SchemeOrder, HostOrder);
    MatchAtFirstAlternative(text, i, r);
    r
  }

  /** The search of RegExpBuiltinExec from start position i up to |text|: the first position where
      the pattern matches and the end of that match. */
  function SearchFrom(text: string, i: nat): (r: Option<(nat, nat)>)
    requires i <= |text|
    ensures r.Some? ==> i <= r.value.0 < r.value.1 <= |text| && InLanguageAt(text, r.value.0, r.value.1)
    ensures r.Some? ==> NoMatchFrom(text, i, r.value.0)
    ensures r.Some? ==> forall j | r.value.1 < j :: !InLanguageAt(text, r.value.0, j)
    ensures r.Some? ==> r.value.1 == |text| || IsSpace(text[r.value.1])
    ensures r.None? ==> NoMatchFrom(text, i, |text| + 1)
    decreases |text| - i
  {
    match MatchAt(text, i)
    case Some(e) => Some((i, e))
    case None =>
      if i == |text| then None
      else
        var r := SearchFrom(text, i + 1);
        NoMatchFromStep(text, i, if r.Some? then r.value.0 else |text| + 1);
        r
  }

  /** Extends a stretch of start positions without a match by one position on the left. */
  lemma NoMatchFromStep(text: string, i: nat, hi: nat)
    requires i < hi && NoMatchFrom(text, i + 1, hi)
    requires forall j :: !InLanguageAt(text, i, j)
    ensures NoMatchFrom(text, i, hi)
  {
  }

  /** The span of the match `text.match(tiktokRegex)` finds, if any. */
  function Search(text: string): (r: Option<(nat, nat)>)
    ensures r.Some? ==> r.value.0 < r.value.1 <= |text| && Selected(text, r.value.0, r.value.1)
    ensures r.Some? ==> r.value.1 == |text| || IsSpace(text[r.value.1])
    ensures r.None? <==> NoMatch(text)
  {
    SearchFrom(text, 0)
  }

  /** `match[0]`: the matched substring itself, or None when `match` gives null. */
  function Match(text: string): (r: Option<string>)
    ensures r.None? <==> NoMatch(text)
    ensures r.Some? ==> exists start: nat, end: nat | start <= end <= |text| :: Selected(text, start, end) && r.value == text[start..end]
  {
    match Search(text)
    case None => None
    case Some((start, end)) =>
      SelectedWitness(text, start, end);
      Some(text[start..end])
  }

  lemma SelectedWitness(text: string, start: nat, end: nat)
    requires start <= end <= |text| && Selected(text, start, end)
    ensures exists a: nat, b: nat | a <= b <= |text| :: Selected(text, a, b) && text[start..end] == text[a..b]
  {
  }

  // ---------------------------------------------------------------------------------------------
  // Proofs about the matcher

  /** `HasAt` seen character by character. */
  lemma HasAtChar(text: string, i: nat, w: string, k: nat)
    requires HasAt(text, i, w) && k < |w|
    ensures text[i + k] == w[k]
  {
    assert text[i..i + |w|][k] == w[k];
  }

  /** A prefix that occurs at i has its parts at the matching offsets. */
  lemma HasAtParts(text: string, i: nat, s: Scheme, h: Host)
    requires HasAt(text, i, Prefix(s, h))
    ensures HasAt(text, i, SchemeText(s))
    ensures HasAt(text, i + |SchemeText(s)|, HostText(h))
    ensures HasAt(text, i + |SchemeText(s)| + |HostText(h)|, Domain)
  {
    HasAtSplit(text, i, SchemeText(s) + HostText(h), Domain);
    HasAtSplit(text, i, SchemeText(s), HostText(h));
  }

  /** An occurrence of u + w is an occurrence of u followed by one of w. */
  lemma HasAtSplit(text: string, i: nat, u: string, w: string)
    requires HasAt(text, i, u + w)
    ensures HasAt(text, i, u) && HasAt(text, i + |u|, w)
  {
    var t := text[i..i + |u| + |w|];
    assert text[i..i + |u|] == t[..|u|];
    assert text[i + |u|..i + |u| + |w|] == t[|u|..];
  }

  /** Which alternatives a prefix that occurs at i took can be read off at most two characters
      after the start of each group. */
  lemma PrefixLetters(text: string, i: nat, s: Scheme, h: Host)
    requires HasAt(text, i, Prefix(s, h))
    ensures i + 11 <= |text|
    ensures s == NoScheme <==> text[i] != 'h'
    ensures s == Https <==> text[i] == 'h' && text[i + 4] == 's'
    ensures var k := i + |SchemeText(s)|;
      && (h == Www <==> text[k] == 'w')
      && (h == Vt <==> text[k] == 'v' && text[k + 1] == 't')
      && (h == Vm <==> text[k] == 'v' && text[k + 1] == 'm')
      && (h == T <==> text[k] == 't' && text[k + 1] == '.')
      && (h == NoHost <==> text[k] == 't' && text[k + 1] == 'i')
  {
    var p := Prefix(s, h);
    var k := |SchemeText(s)|;
    HasAtChar(text, i, p, 0);
    HasAtChar(text, i, p, 4);
    HasAtChar(text, i, p, k);
    HasAtChar(text, i, p, k + 1);
  }

  /** At one position at most one choice of alternatives can spell its prefix. */
  lemma {:induction false} PrefixDeterminesChoice(text: string, i: nat, s: Scheme, h: Host, s': Scheme, h': Host)
    requires HasAt(text, i, Prefix(s, h)) && HasAt(text, i, Prefix(s', h'))
    ensures s == s' && h == h'
  {
    PrefixLetters(text, i, s, h);
    PrefixLetters(text, i, s', h');
  }

  lemma EveryAlternativeIsTried(s: Scheme, h: Host)
    ensures exists k, m | 0 <= k < |SchemeOrder| && 0 <= m < |HostOrder| :: SchemeOrder[k] == s && HostOrder[m] == h
  {
    var k := match s case Https => 0 case Http => 1 case NoScheme => 2;
    var m := match h case Www => 0 case Vt => 1 case Vm => 2 case T => 3 case NoHost => 4;
    assert SchemeOrder[k] == s && HostOrder[m] == h;
  }

  /** What the first alternative to succeed at i (if any) says about the language at i: its end is
      the end of the only, and so the longest, member of the language that starts at i. */
  lemma MatchAtFirstAlternative(text: string, i: nat, r: Option<nat>)
    requires i <= |text| && r == TrySchemes(text, i, SchemeOrder, HostOrder)
    ensures r.Some? ==> i < r.value <= |text| && InLanguageAt(text, i, r.value)
    ensures r.Some? ==> forall j | r.value < j :: !InLanguageAt(text, i, j)
    ensures r.Some? ==> r.value == |text| || IsSpace(text[r.value])
    ensures r.None? ==> forall j :: !InLanguageAt(text, i, j)
  {
    if r.Some? {
      var k: nat :| FirstScheme(text, i, SchemeOrder, HostOrder, k) && TryHosts(text, i, SchemeOrder[k], HostOrder) == r;
      var m: nat :| FirstHost(text, i, SchemeOrder[k], HostOrder, m) && TryAt(text, i, SchemeOrder[k], HostOrder[m]) == r;
      SucceedingAlternativeIsLongest(text, i, SchemeOrder[k], HostOrder[m], r.value);
    } else {
      forall j ensures !InLanguageAt(text, i, j) {
        forall s', h' ensures !SpellsAt(text, i, j, s', h') {
          EveryAlternativeIsTried(s', h');
          var k, m :| 0 <= k < |SchemeOrder| && 0 <= m < |HostOrder| && SchemeOrder[k] == s' && HostOrder[m] == h';
          assert TryHosts(text, i, SchemeOrder[k], HostOrder).None?;
        }
      }
    }
  }

  /** An alternative that succeeds at i ends the longest member of the language that starts at i. */
  lemma {:induction false} SucceedingAlternativeIsLongest(text: string, i: nat, s: Scheme, h: Host, e: nat)
    requires i <= |text| && TryAt(text, i, s, h) == Some(e)
    ensures i < e <= |text| && InLanguageAt(text, i, e)
    ensures forall j | e < j :: !InLanguageAt(text, i, j)
  {
    assert SpellsAt(text, i, e, s, h);
    forall j | e < j ensures !InLanguageAt(text, i, j) {
      forall s', h' ensures !SpellsAt(text, i, j, s', h') {
        if SpellsAt(text, i, j, s', h') {
          PrefixDeterminesChoice(text, i, s, h, s', h');
          assert false;
        }
      }
    }
  }

  /** The characters of a prefix are all printable ASCII, so none is `\s`. */
  lemma PrefixHasNoSpace(s: Scheme, h: Host)
    ensures forall k | 0 <= k < |Prefix(s, h)| :: !IsSpace(Prefix(s, h)[k])
  {
    var a, b := SchemeText(s), HostText(h);
    assert forall k | 0 <= k < |a| :: '!' <= a[k] <= '~';
    assert forall k | 0 <= k < |b| :: '!' <= b[k] <= '~';
    assert forall k | 0 <= k < |Domain| :: '!' <= Domain[k] <= '~';
    var p := Prefix(s, h);
    forall k | 0 <= k < |p| ensures '!' <= p[k] <= '~' {
      if k < |a| { assert p[k] == a[k]; }
      else if k < |a| + |b| { assert p[k] == b[k - |a|]; }
      else { assert p[k] == Domain[k - |a| - |b|]; }
    }
  }

  /** A member of the language contains no `\s` at all. */
  lemma {:induction false} InLanguageHasNoSpace(text: string, i: nat, j: nat)
    ensures InLanguageAt(text, i, j) ==> forall k | i <= k < j :: !IsSpace(text[k])
  {
    if InLanguageAt(text, i, j) {
      var s, h :| SpellsAt(text, i, j, s, h);
      var p := Prefix(s, h);
      PrefixHasNoSpace(s, h);
      forall k | i <= k < j ensures !IsSpace(text[k]) {
        if k < i + |p| {
          HasAtChar(text, i, p, k - i);
          assert !IsSpace(p[k - i]);
        }
      }
    }
  }

  /** Membership depends only on the characters of the span. */
  lemma {:induction false} InLanguageOfSlice(text: string, i: nat, j: nat)
    requires i <= j <= |text|
    ensures InLanguageAt(text, i, j) <==> InLanguage(text[i..j])
  {
    var m := text[i..j];
    assert forall k | 0 <= k < |m| :: m[k] == text[i + k];
    forall s, h ensures SpellsAt(text, i, j, s, h) <==> SpellsAt(m, 0, |m|, s, h) {
      var p := Prefix(s, h);
      if |p| < |m| {
        assert text[i..i + |p|] == m[0..|p|];
        assert HasAt(text, i, p) <==> HasAt(m, 0, p);
        assert (forall k | i + |p| <= k < j :: !IsSpace(text[k]))
          <==> (forall k | |p| <= k < |m| :: !IsSpace(m[k]));
      }
    }
  }

  // ---------------------------------------------------------------------------------------------
  // Properties of the link detector

  /** The declarative description leaves no choice: at most one span is selected. */
  lemma {:induction false} SelectedIsUnique(text: string, s1: nat, e1: nat, s2: nat, e2: nat)
    requires Selected(text, s1, e1) && Selected(text, s2, e2)
    ensures s1 == s2 && e1 == e2
  {
  }

  /** The result of `Match` is the span the declarative description selects. */
  lemma {:induction false} MatchIsSelected(text: string, start: nat, end: nat)
    requires start <= end <= |text| && Selected(text, start, end)
    ensures Match(text) == Some(text[start..end])
  {
    var r := Search(text);
    if r.Some? {
      SelectedIsUnique(text, start, end, r.value.0, r.value.1);
    }
  }

  /** `tiktok.com/` followed by a character that is not `\s` is, on its own, a member of the language. */
  lemma {:induction false} LinkCoreIsInLanguage(text: string, k: nat)
    requires LinkCoreAt(text, k)
    ensures InLanguageAt(text, k, k + |Domain| + 1)
  {
    assert Prefix(NoScheme, NoHost) == Domain;
    assert SpellsAt(text, k, k + |Domain| + 1, NoScheme, NoHost);
  }

  /** Every member of the language holds `tiktok.com/` followed by a character that is not `\s`. */
  lemma {:induction false} InLanguageHasLinkCore(text: string, i: nat, j: nat, s: Scheme, h: Host)
    requires SpellsAt(text, i, j, s, h)
    ensures LinkCoreAt(text, i + |SchemeText(s)| + |HostText(h)|)
    ensures i + |SchemeText(s)| + |HostText(h)| + |Domain| < j
  {
    HasAtParts(text, i, s, h);
    var q := i + |Prefix(s, h)|;
    assert !IsSpace(text[q]);
  }

  /** There is a link exactly when `tiktok.com/` occurs followed by a character that is not `\s`:
      the scheme and the host are optional. */
  lemma {:induction false} MatchNoneIff(text: string)
    ensures Match(text).None? <==> forall k | 0 <= k < |text| :: !LinkCoreAt(text, k)
  {
    if k :| 0 <= k < |text| && LinkCoreAt(text, k) {
      LinkCoreIsInLanguage(text, k);
      assert !NoMatch(text);
    }
    var r := Search(text);
    if r.Some? {
      var start, end := r.value.0, r.value.1;
      var s, h :| SpellsAt(text, start, end, s, h);
      InLanguageHasLinkCore(text, start, end, s, h);
    }
  }

  /** The link is a verbatim, `\s`-free substring of the text, a member of the language of the
      pattern, and contains `tiktok.com/` followed by a character that is not `\s`. */
  lemma {:induction false} MatchIsVerbatimLink(text: string)
    requires Match(text).Some?
    ensures var m := Match(text).value;
      && (exists start | 0 <= start :: HasAt(text, start, m))
      && InLanguage(m)
      && NoSpace(m)
      && (exists k | 0 <= k :: LinkCoreAt(m, k))
  {
    var r := Search(text).value;
    var start, end := r.0, r.1;
    var m := text[start..end];
    assert HasAt(text, start, m);
    InLanguageOfSlice(text, start, end);
    SliceHasNoSpace(text, start, end);
    MemberHasLinkCore(m);
  }

  /** A span in the language gives a `\s`-free slice. */
  lemma {:induction false} SliceHasNoSpace(text: string, start: nat, end: nat)
    requires start <= end <= |text| && InLanguageAt(text, start, end)
    ensures NoSpace(text[start..end])
  {
    var m := text[start..end];
    InLanguageHasNoSpace(text, start, end);
    forall k | 0 <= k < |m| ensures !IsSpace(m[k]) {
      assert m[k] == text[start + k];
    }
  }

  /** A member of the language holds `tiktok.com/` followed by a character that is not `\s`. */
  lemma {:induction false} MemberHasLinkCore(m: string)
    requires InLanguage(m)
    ensures exists k | 0 <= k :: LinkCoreAt(m, k)
  {
    var s, h :| SpellsAt(m, 0, |m|, s, h);
    InLanguageHasLinkCore(m, 0, |m|, s, h);
  }

  /** Membership of a span depends only on the characters of the span. */
  lemma {:induction false} SpellsAtExtended(before: string, text: string, i: nat, j: nat, s: Scheme, h: Host)
    requires |before| <= |text| && text[..|before|] == before && j <= |before|
    ensures SpellsAt(text, i, j, s, h) <==> SpellsAt(before, i, j, s, h)
  {
    var p := Prefix(s, h);
    var q := i + |p|;
    assert forall k | 0 <= k < |before| :: text[k] == before[k] by {
      forall k | 0 <= k < |before| ensures text[k] == before[k] {
        assert text[..|before|][k] == text[k];
      }
    }
    if q < j {
      assert text[i..q] == before[i..q];
      assert HasAt(text, i, p) <==> HasAt(before, i, p);
    }
  }

  /** Text that ends in `\s` and holds no link cannot lend its end to a link that follows it. */
  lemma {:induction false} NoMatchBeforeSpace(before: string, text: string)
    requires NoMatch(before)
    requires before == [] || IsSpace(before[|before| - 1])
    requires |before| <= |text| && text[..|before|] == before
    ensures NoMatchFrom(text, 0, |before|)
  {
    forall i, j | 0 <= i < |before| && i <= j ensures !InLanguageAt(text, i, j) {
      InLanguageHasNoSpace(text, i, j);
      if |before| <= j {
        assert IsSpace(text[|before| - 1]) by {
          assert text[..|before|][|before| - 1] == text[|before| - 1];
        }
      } else {
        assert !InLanguageAt(before, i, j);
        forall s', h' ensures !SpellsAt(text, i, j, s', h') {
          SpellsAtExtended(before, text, i, j, s', h');
        }
      }
    }
  }

  /** A prefix followed by characters that are not `\s` spells a member of the language. */
  lemma {:induction false} LinkIsSpelled(before: string, s: Scheme, h: Host, path: string, after: string)
    requires path != [] && NoSpace(path)
    ensures var n := |before| + |Prefix(s, h)|;
      SpellsAt(before + Prefix(s, h) + path + after, |before|, n + |path|, s, h)
  {
    var p := Prefix(s, h);
    var text := before + p + path + after;
    var start, q := |before|, |before| + |p|;
    forall k | 0 <= k < |p| ensures text[start..q][k] == p[k] {
      assert text[start..q][k] == text[start + k];
      assert (before + p)[start + k] == p[k];
    }
    assert |text[start..q]| == |p|;
    assert text[start..q] == p;
    forall k | q <= k < q + |path| ensures !IsSpace(text[k]) {
      assert text[k] == path[k - q];
    }
  }

  /** The span of such a link is the one the declarative description selects. */
  lemma {:induction false} LinkInContextIsSelected(before: string, s: Scheme, h: Host, path: string, after: string)
    requires NoMatch(before)
    requires before == [] || IsSpace(before[|before| - 1])
    requires path != [] && NoSpace(path)
    requires after == [] || IsSpace(after[0])
    ensures var start := |before|;
      var end := start + |Prefix(s, h)| + |path|;
      var text := before + Prefix(s, h) + path + after;
      && end <= |text| && Selected(text, start, end) && text[start..end] == Prefix(s, h) + path
  {
    var p := Prefix(s, h);
    var text := before + p + path + after;
    var start, end := |before|, |before| + |p| + |path|;
    ConcatParts(before, p, path, after);
    NoMatchBeforeSpace(before, text);
    LinkIsSpelled(before, s, h, path, after);
    NothingLongerPastSpace(text, start, end);
    assert Selected(text, start, end);
  }

  /** Where the parts of `before + p + path + after` sit in it. */
  lemma ConcatParts(before: string, p: string, path: string, after: string)
    ensures var text := before + p + path + after;
      var end := |before| + |p| + |path|;
      && |text| == end + |after|
      && text[..|before|] == before
      && text[|before|..end] == p + path
      && (end < |text| ==> text[end] == after[0])
  {
    var text := before + p + path + after;
    var end := |before| + |p| + |path|;
    assert text == (before + p + path) + after;
    assert before + p + path == before + (p + path);
    assert text[..|before|] == before;
    assert text[|before|..end] == p + path;
  }

  /** No member of the language starting at `start` reaches past a `\s` at `end`. */
  lemma {:induction false} NothingLongerPastSpace(text: string, start: nat, end: nat)
    requires start <= end <= |text|
    requires end == |text| || IsSpace(text[end])
    ensures forall j | end < j :: !InLanguageAt(text, start, j)
  {
    forall j | end < j ensures !InLanguageAt(text, start, j) {
      InLanguageHasNoSpace(text, start, j);
    }
  }

  /** A link written after text that ends in `\s` and holds no link of its own is returned whole,
      with the scheme and the host it was written with, up to the next `\s` or the end. */
  lemma {:induction false} MatchInContext(before: string, s: Scheme, h: Host, path: string, after: string)
    requires Match(before).None?
    requires before == [] || IsSpace(before[|before| - 1])
    requires path != [] && NoSpace(path)
    requires after == [] || IsSpace(after[0])
    ensures Match(before + Prefix(s, h) + path + after) == Some(Prefix(s, h) + path)
  {
    LinkInContextIsSelected(before, s, h, path, after);
    MatchIsSelected(before + Prefix(s, h) + path + after, |before|, |before| + |Prefix(s, h)| + |path|);
  }

  /** There is no `i` flag: upper case is not a link. */
  lemma UpperCaseIsNoLink()
    ensures Match("TIKTOK.COM/x").None?
  {
    UpperCaseHasNoLinkCore("TIKTOK.COM/x");
  }

  /** Helper for UpperCaseIsNoLink, stated for a text equal to the literal. */
  lemma UpperCaseHasNoLinkCore(text: string)
    requires text == "TIKTOK.COM/x"
    ensures Match(text).None?
  {
    assert forall x | 0 <= x < |text| :: text[x] != 't';
    forall k | 0 <= k < |text| ensures !LinkCoreAt(text, k) {
      if LinkCoreAt(text, k) {
        HasAtChar(text, k, Domain, 0);
        assert false;
      }
    }
    MatchNoneIff(text);
  }

  /** The host list is closed: `m.` is not one of the alternatives, so the match starts at
      `tiktok` and the scheme written before it is dropped. */
  lemma UnlistedHostIsDropped()
    ensures Match("https://m.tiktok.com/x") == Some("tiktok.com/x")
  {
    TikTokIsFound("https://m.tiktok.com/x");
  }

  /** Helper for UnlistedHostIsDropped, stated for a text equal to the literal. */
  lemma TikTokIsFound(text: string)
    requires text == "https://m.tiktok.com/x"
    ensures Match(text) == Some("tiktok.com/x")
  {
    NoLinkBeforeTikTok(text);
    TikTokIsSpelled(text);
    LaterSpanToEndIsSelected(text, 10);
  }

  /** A span that runs to the end of the text, with no member of the language starting before it,
      is what `Match` returns. */
  lemma {:induction false} LaterSpanToEndIsSelected(text: string, start: nat)
    requires start <= |text| && NoMatchFrom(text, 0, start) && InLanguageAt(text, start, |text|)
    ensures Match(text) == Some(text[start..])
  {
    NothingLongerPastSpace(text, start, |text|);
    assert Selected(text, start, |text|);
    MatchIsSelected(text, start, |text|);
    assert text[start..|text|] == text[start..];
  }

  /** Helper for UnlistedHostIsDropped: the bare link is spelled from position 10 to the end. */
  lemma TikTokIsSpelled(text: string)
    requires text == "https://m.tiktok.com/x"
    ensures InLanguageAt(text, 10, |text|) && text[10..] == "tiktok.com/x"
  {
    assert HasAt(text, 10, Domain);
    assert SpellsAt(text, 10, 22, NoScheme, NoHost);
  }

  /** Helper for UnlistedHostIsDropped: no span of "https://m.tiktok.com/x" starting before 10
      is in the language. */
  lemma NoLinkBeforeTikTok(text: string)
    requires text == "https://m.tiktok.com/x"
    ensures NoMatchFrom(text, 0, 10)
  {
    forall i, j | 0 <= i < 10 && i <= j ensures !InLanguageAt(text, i, j) {
      forall s, h ensures !SpellsAt(text, i, j, s, h) {
        NoPrefixBeforeTikTok(text, i, s, h);
      }
    }
  }

  /** Helper for UnlistedHostIsDropped: in "https://m.tiktok.com/x" no choice of alternatives
      spells its prefix at a position before 10. */
  lemma NoPrefixBeforeTikTok(text: string, i: nat, s: Scheme, h: Host)
    requires text == "https://m.tiktok.com/x" && i < 10
    ensures !HasAt(text, i, Prefix(s, h))
  {
    assert text[0] == 'h' && text[1] == 't' && text[2] == 't' && text[3] == 'p' && text[4] == 's';
    assert text[6] == '/' && text[7] == '/' && text[8] == 'm';
    if HasAt(text, i, Prefix(s, h)) {
      PrefixLetters(text, i, s, h);
      HasAtParts(text, i, s, h);
      var k := i + |SchemeText(s)| + |HostText(h)|;
      HasAtChar(text, k, Domain, 0);
      HasAtChar(text, k, Domain, 1);
      TiOnlyAt10(text, k);
      assert false;
    }
  }

  /** Helper for UnlistedHostIsDropped: "ti" occurs in "https://m.tiktok.com/x" only at 10. */
  lemma TiOnlyAt10(text: string, k: nat)
    requires text == "https://m.tiktok.com/x"
    requires k + 1 < |text| && text[k] == 't' && text[k + 1] == 'i'
    ensures k == 10
  {
    assert text[1] == 't' && text[2] == 't' && text[13] == 't';
    assert text[2] != 'i' && text[3] != 'i' && text[14] != 'i';
  }
}

=== FILE: message_handler.dfy ===
/**
  The bot's `message` handler (index.js:33-73), as the sequence of chat calls it makes for one
  incoming message.

  The handler talks to Telegram and to the TikWM adapter; those calls become inputs: whether the
  "processing" notice could be sent, the TikWM answer for each link, and whether the video could
  be sent. The trace lists the calls the handler makes, in order, whether or not they then succeed.
  `deleteMessage` and `editMessageText` are not awaited, so how they end changes nothing in this
  message's calls.
*/
module MessageHandler {
  import opened Wrappers
  import LinkMatcher
  import TikWm

  /** A chat call of the handler. */
  datatype Action =
    | SendProcessing        // sendMessage: the "processing" notice, as a reply to the message
    | SendVideo(url: TikWm.Json)  // sendVideo with the url the adapter returned
    | DeleteProcessing      // deleteMessage of the notice
    | EditToError           // editMessageText of the notice into the error text

  /** How the calls the handler awaits end, and what TikWM answers for a link. */
  datatype Outcomes = Outcomes(
    processingSent: bool,                // `bot.sendMessage` resolves
    answer: string -> TikWm.Response,    // what the TikWM request for a link ends with
    videoSent: bool)                     // `bot.sendVideo` resolves

  /** JavaScript truthiness of a value read from JSON (`!v` is its negation): the falsy values a
      JSON answer can hold are `undefined`, `null`, `false`, `0` and `""`. */
  predicate Truthy(v: TikWm.Val): (b: bool)
    ensures !b <==> v in Falsy
  {
    match v
    case Undefined => false
    case Def(j) =>
      match j
      case JNull => false
      case JBool(b) => b
      case JNumber(n) => n != 0.0
      case JString(s) => s != ""
      case JArray(_) => true
      case JObject(_) => true
  }

  /** The falsy values of JavaScript that `JSON.parse` can produce, and `undefined`. */
  const Falsy: set<TikWm.Val> := {
    TikWm.Undefined, TikWm.Def(TikWm.JNull), TikWm.Def(TikWm.JBool(false)),
    TikWm.Def(TikWm.JNumber(0.0)), TikWm.Def(TikWm.JString(""))}

  /** The link the handler acts on: the first match in the message text, if there is a text. */
  function LinkOf(text: Option<string>): Option<string> {
    if text.None? then None else LinkMatcher.Match(text.value)
  }

  /** The calls the handler makes for a message that may carry a text. */
  function OnMessage(text: Option<string>, env: Outcomes): (trace: seq<Action>)
    ensures trace == [] <==> LinkOf(text).None?
    ensures Shaped(trace)
    ensures trace != [] ==> trace[0] == SendProcessing
    ensures trace == [SendProcessing] <==> LinkOf(text).Some? && !env.processingSent
  {
    if text.None? || text.value == "" then
      EmptyTextHasNoLink();
      []
    else
      var link := LinkMatcher.Match(text.value);
      if link.None? then
        []
      else if !env.processingSent then
        [SendProcessing]
      else
        var video := TikWm.GetVideoNoWatermark(env.answer(link.value));
        if video.None? || !Truthy(video.value.url) then
          [SendProcessing, EditToError]
        else if env.videoSent then
          [SendProcessing, SendVideo(video.value.url.json), DeleteProcessing]
        else
          [SendProcessing, SendVideo(video.value.url.json), EditToError]
  }

  /** `!text` also turns away the empty text, which holds no link anyway. */
  lemma EmptyTextHasNoLink()
    ensures LinkMatcher.Match("").None?
  {
    assert LinkMatcher.NoMatch("");
  }

  // ---------------------------------------------------------------------------------------------
  // What the handler promises

  /** The possible traces: nothing; the notice alone (it could not be sent, so the handler stops);
      the notice turned into the error; or the video followed by the notice's removal, or by the
      error when the video could not be sent. */
  predicate Shaped(trace: seq<Action>) {
    || trace == []
    || trace == [SendProcessing]
    || trace == [SendProcessing, EditToError]
    || (|trace| == 3 && trace[0] == SendProcessing && trace[1].SendVideo?
        && (trace[2] == DeleteProcessing || trace[2] == EditToError))
  }

  /** The adapter returned the record v for the link of the message, without looking at the url. */
  ghost predicate Fetched(text: Option<string>, env: Outcomes, v: TikWm.VideoData) {
    && LinkOf(text).Some?
    && TikWm.Accepted(env.answer(LinkOf(text).value))
    && v == TikWm.Expected(env.answer(LinkOf(text).value))
  }

  /** The message led to a delivered video: it has a link, the notice was sent, TikWM accepted the
      link with a truthy `play` url, and the video was sent. */
  ghost predicate Delivered(text: Option<string>, env: Outcomes) {
    && env.processingSent && env.videoSent
    && exists v :: Fetched(text, env, v) && Truthy(v.url)
  }

  /** The fetched record, when the adapter returns one for the link of the message. */
  lemma {:induction false} FetchedIsAdapterResult(text: Option<string>, env: Outcomes)
    requires LinkOf(text).Some?
    ensures var video := TikWm.GetVideoNoWatermark(env.answer(LinkOf(text).value));
      && (video.Some? <==> exists v :: Fetched(text, env, v))
      && (video.Some? ==> Fetched(text, env, video.value))
  {
    var video := TikWm.GetVideoNoWatermark(env.answer(LinkOf(text).value));
    if video.Some? {
      assert Fetched(text, env, video.value);
    }
  }

  /** The notice is removed exactly when the video was delivered. */
  lemma {:induction false} DeletedIffDelivered(text: Option<string>, env: Outcomes)
    ensures DeleteProcessing in OnMessage(text, env) <==> Delivered(text, env)
  {
    if LinkOf(text).Some? {
      FetchedIsAdapterResult(text, env);
    }
  }

  /** The notice is edited into the error exactly when it was sent and no video was delivered. */
  lemma {:induction false} ErrorIffNotDelivered(text: Option<string>, env: Outcomes)
    ensures EditToError in OnMessage(text, env)
      <==> LinkOf(text).Some? && env.processingSent && !Delivered(text, env)
  {
    if LinkOf(text).Some? {
      FetchedIsAdapterResult(text, env);
    }
  }

  /** A video is sent only with the truthy `play` url TikWM gave for the link of the message; and
      once the notice was sent, a truthy url is always sent, followed by the notice's removal when
      `sendVideo` resolves and by the error when it rejects. */
  lemma {:induction false} SentVideoIsFetched(text: Option<string>, env: Outcomes)
    ensures forall a | a in OnMessage(text, env) && a.SendVideo? ::
      exists v :: Fetched(text, env, v) && Truthy(v.url) && v.url == TikWm.Def(a.url)
    ensures forall v | env.processingSent && Fetched(text, env, v) && Truthy(v.url) ::
      OnMessage(text, env)
        == [SendProcessing, SendVideo(v.url.json), if env.videoSent then DeleteProcessing else EditToError]
  {
    if LinkOf(text).Some? {
      FetchedIsAdapterResult(text, env);
      if text.value == "" {
        EmptyTextHasNoLink();
      }
    }
  }

  /** Once the notice was sent, the handler always resolves it: the trace ends with exactly one of
      its removal and its edit into the error. */
  lemma {:induction false} NoticeIsResolved(text: Option<string>, env: Outcomes)
    requires LinkOf(text).Some? && env.processingSent
    ensures var trace := OnMessage(text, env);
      && trace != []
      && (trace[|trace| - 1] == DeleteProcessing || trace[|trace| - 1] == EditToError)
      && (DeleteProcessing in trace <==> EditToError !in trace)
  {
    ShapedEnding(OnMessage(text, env));
  }

  /** A shaped trace of two calls or more ends with exactly one of the two resolutions. */
  lemma ShapedEnding(trace: seq<Action>)
    requires Shaped(trace) && |trace| >= 2
    ensures trace[|trace| - 1] == DeleteProcessing || trace[|trace| - 1] == EditToError
    ensures DeleteProcessing in trace <==> EditToError !in trace
  {
    if |trace| == 3 {
      assert trace == [trace[0], trace[1], trace[2]];
    }
  }

  /** The handler asks TikWM about the link of the message and nothing else: two environments that
      agree on the answer for that link lead to the same calls. */
  lemma {:induction false} OnlyTheLinkIsLookedUp(text: Option<string>, env: Outcomes, env': Outcomes)
    requires env.processingSent == env'.processingSent && env.videoSent == env'.videoSent
    requires LinkOf(text).Some? ==> env.answer(LinkOf(text).value) == env'.answer(LinkOf(text).value)
    ensures OnMessage(text, env) == OnMessage(text, env')
  {
  }

  /** A message whose link TikWM resolves to a record with a truthy url, when both sends resolve,
      gets the video with that url and then loses its notice. */
  lemma {:induction false} DeliveredTrace(text: Option<string>, env: Outcomes, v: TikWm.VideoData)
    requires LinkOf(text).Some? && env.processingSent && env.videoSent
    requires TikWm.GetVideoNoWatermark(env.answer(LinkOf(text).value)) == Some(v) && Truthy(v.url)
    ensures OnMessage(text, env) == [SendProcessing, SendVideo(v.url.json), DeleteProcessing]
  {
    if text.value == "" {
      EmptyTextHasNoLink();
    }
  }

  /** End to end: a message whose text holds one link after text that ends in `\s` (or nothing),
      answered by TikWM with code 0 and a `play` url that is a non-empty string, and whose video
      could be sent, gets that video and loses its notice. */
  lemma {:induction false} LinkInMessageIsDelivered(
    before: string, s: LinkMatcher.Scheme, h: LinkMatcher.Host, path: string, after: string,
    url: string, env: Outcomes)
    requires LinkMatcher.Match(before).None?
    requires before == [] || LinkMatcher.IsSpace(before[|before| - 1])
    requires path != [] && LinkMatcher.NoSpace(path)
    requires after == [] || LinkMatcher.IsSpace(after[0])
    requires url != ""
    requires env.processingSent && env.videoSent
    requires env.answer(LinkMatcher.Prefix(s, h) + path) == TikWm.PlayAnswer(url)
    ensures OnMessage(Some(before + LinkMatcher.Prefix(s, h) + path + after), env)
      == [SendProcessing, SendVideo(TikWm.JString(url)), DeleteProcessing]
  {
    var text := before + LinkMatcher.Prefix(s, h) + path + after;
    LinkMatcher.MatchInContext(before, s, h, path, after);
    TikWm.PlayAnswerIsRead(url);
    DeliveredTrace(Some(text), env, TikWm.VideoData(TikWm.Def(TikWm.JString(url)), TikWm.Undefined, TikWm.Undefined));
  }
}

=== FILE: tikwm.dfy ===
/**
  The adapter `getVideoNoWatermark` (index.js:76-100): it posts the link to the TikWM API and turns
  the answer into the bot's own video record, or into `null` on any failure.

  The HTTP call is not modelled: its outcome is the input `Response`, either a rejection of the
  request (a network error or a non-2xx status, which axios turns into an exception) or the body
  axios hands back as `response.data`, a value `JSON.parse` can produce (a body that is not JSON
  stays a string, which is a `JString` here). Reading a property follows JavaScript: reading from
  `undefined` or `null` throws a TypeError, an object yields its own property or `undefined`, and
  any other value yields `undefined` for the six names read here, none of which names a property
  that strings, numbers, booleans or arrays inherit.
*/
module TikWm {
  import opened Wrappers

  /** A value `JSON.parse` can produce. A number is the value after parsing: `JSON.parse` never gives
      NaN, but it rounds numerals to doubles, so `1e-400` arrives as 0, and `1e400` becomes Infinity,
      which no `real` stands for. */
  datatype Json =
    | JNull
    | JBool(b: bool)
    | JNumber(n: real)
    | JString(s: string)
    | JArray(items: seq<Json>)
    | JObject(fields: map<string, Json>)

  /** A JavaScript value met while reading the answer: `undefined` or a parsed JSON value. */
  datatype Val = Undefined | Def(json: Json)

  /** The only exception a property read can raise. */
  datatype Error = TypeError

  /** The property names the adapter reads. */
  datatype Key = Code | Data | Play | Title | Author | Nickname

  function Name(k: Key): string {
    match k
    case Code => "code"
    case Data => "data"
    case Play => "play"
    case Title => "title"
    case Author => "author"
    case Nickname => "nickname"
  }

  /** What the TikWM request ends with. */
  datatype Response = Rejected | Received(data: Json)

  /** The object the adapter returns: `{ url, title, author }`. */
  datatype VideoData = VideoData(url: Val, title: Val, author: Val)

  /** The property read `v[Name(k)]`. */
  function Get(v: Val, k: Key): (r: Result<Val, Error>)
    ensures r.Failure? <==> v == Undefined || v == Def(JNull)
    ensures r.Success? && r.value.Def? <==> v.Def? && v.json.JObject? && Name(k) in v.json.fields
    ensures r.Success? && r.value.Def? ==> r.value.json == v.json.fields[Name(k)]
  {
    match v
    case Undefined => Failure(TypeError)
    case Def(JNull) => Failure(TypeError)
    case Def(JObject(fields)) => Success(if Name(k) in fields then Def(fields[Name(k)]) else Undefined)
    case Def(_) => Success(Undefined)
  }

  /** The body of the `try` block once the answer is in: `data.code === 0` decides between the
      record and `null`; a TypeError raised on the way leaves the block. Reads from a value that
      has already been read from once cannot throw, and are written without a failure path. */
  function ReadAnswer(data: Val): (r: Result<Option<VideoData>, Error>)
    ensures data.Def? ==> (r.Success? && r.value.Some? <==> Accepted(Received(data.json)))
    ensures data.Def? && r.Success? && r.value.Some? ==> r.value.value == Expected(Received(data.json))
    ensures r == Success(None) <==>
      && data != Undefined && data != Def(JNull)
      && (data.json.JObject? ==> Field(data.json.fields, "code") != Def(JNumber(0.0)))
  {
    var code :- Get(data, Code);
    if code != Def(JNumber(0.0)) then
      Success(None)
    else
      var inner := Get(data, Data).value;
      var url :- Get(inner, Play);
      var title := Get(inner, Title).value;
      var author := Get(inner, Author).value;
      var nickname :- Get(author, Nickname);
      Success(Some(VideoData(url, title, nickname)))
  }

  // ---------------------------------------------------------------------------------------------
  // What the adapter promises, stated on the raw JSON

  /** `m[name]` as JavaScript reads it from an object: the own property or `undefined`. */
  function Field(m: map<string, Json>, name: string): Val {
    if name in m then Def(m[name]) else Undefined
  }

  /** The answer is a success: an object whose `code` is the number 0, whose `data` is an object
      and whose `data.author` is present and not `null`, so that all three reads succeed. */
  ghost predicate Accepted(r: Response) {
    && r.Received? && r.data.JObject?
    && Field(r.data.fields, "code") == Def(JNumber(0.0))
    && Field(r.data.fields, "data").Def? && Field(r.data.fields, "data").json.JObject?
    && var d := Field(r.data.fields, "data").json.fields;
       "author" in d && d["author"] != JNull
  }

  /** The record built from an accepted answer: `data.play`, `data.title` and
      `data.author.nickname`, each `undefined` when absent. */
  ghost function Expected(r: Response): VideoData
    requires Accepted(r)
  {
    var d := r.data.fields["data"].fields;
    var author := d["author"];
    VideoData(Field(d, "play"), Field(d, "title"),
              if author.JObject? then Field(author.fields, "nickname") else Undefined)
  }

  /** `getVideoNoWatermark`: the record for an accepted answer, `null` (None) for anything else,
      whether the request was rejected, `code` is not exactly the number 0, or a read threw. */
  function GetVideoNoWatermark(r: Response): (v: Option<VideoData>)
    ensures v.Some? <==> Accepted(r)
    ensures v.Some? ==> v.value == Expected(r)
  {
    match r
    case Rejected => None
    case Received(data) =>
      match ReadAnswer(Def(data))
      case Success(video) => video
      case Failure(_) => None
  }

  /** `code` is compared with `===`: the string "0" is not the number 0. */
  lemma StrictCodeComparison(d: Json)
    ensures GetVideoNoWatermark(Received(JObject(map["code" := JString("0"), "data" := d]))).None?
  {
  }

  /** A success answer without `play` is not an error of the adapter: it returns a record whose
      url is `undefined`, and it is the handler that gives up on it. */
  lemma {:induction false} MissingPlayIsNoError(r: Response)
    requires Accepted(r) && "play" !in r.data.fields["data"].fields
    ensures GetVideoNoWatermark(r).Some? && GetVideoNoWatermark(r).value.url == Undefined
  {
  }

  /** Only the TikWM answer matters: no answer that is not an object with `code` 0 yields a video. */
  lemma {:induction false} OnlySuccessCodeYieldsVideo(r: Response)
    requires r.Rejected? || !r.data.JObject? || Field(r.data.fields, "code") != Def(JNumber(0.0))
    ensures GetVideoNoWatermark(r).None?
  {
  }

  /** The smallest success answer: code 0 and a `data` object holding `play` and an empty
      `author`. */
  function PlayAnswer(url: string): Response {
    Received(JObject(map[
      "code" := JNumber(0.0),
      "data" := JObject(map["play" := JString(url), "author" := JObject(map[])])]))
  }

  /** The adapter reads `play` from it, and `title` and the nickname come out `undefined`. */
  lemma PlayAnswerIsRead(url: string)
    ensures GetVideoNoWatermark(PlayAnswer(url)) == Some(VideoData(Def(JString(url)), Undefined, Undefined))
  {
    var d := map["play" := JString(url), "author" := JObject(map[])];
    assert PlayAnswer(url).data.fields["data"] == JObject(d);
    assert "title" !in d;
  }
}

=== FILE: wrappers.dfy ===
/** Failure-compatible Option and Result types shared by the other modules. */
module Wrappers {

  /** A value that may be absent. */
  datatype Option<+T> = None | Some(value: T) {

    predicate IsFailure() {
      None?
    }

    function PropagateFailure<U>(): Option<U>
      requires None?
    {
      None
    }

    function Extract(): T
      requires Some?
    {
      value
    }
  }

  /** A computation that either returns a value or raises an error. */
  datatype Result<+T, +E> = Success(value: T) | Failure(error: E) {

    predicate IsFailure() {
      Failure?
    }

    function PropagateFailure<U>(): Result<U, E>
      requires Failure?
    {
      Failure(error)
    }

    function Extract(): T
      requires Success?
    {
      value
    }
  }
}
